=== FILE: README.md ===
# bazel-to-cmake: the rule-translation layer in Dafny

bazel-to-cmake turns a Bazel workspace into one `CMakeLists.txt`. It runs each
WORKSPACE, BUILD and `.bzl` file as a sequence of rule calls (`cc_library(...)`,
`load(...)`, `http_archive(...)`, ...). Each call goes to the method of that name
on a handler object. The handlers add CMake text to a `Converter` record, or they
fail and abort the run. At the end, the converter's text is substituted into a
fixed CMake template.

This project models that layer as pure functions:

- `results.dfy`, module `Results`: the `Result`/`Failure` type. A `Failure`
  stands for the Python exception that would end the run.
- `strings.dfy`, module `Strings`: the string operations the handlers use
  (`startswith`, `endswith`, `join`, `replace(":", "")`, `os.path.join`).
- `converter.dfy`, module `CMakeConverter`: the `Converter` record, `add_subproject`
  and `convert` (converter.py).
- `rules.dfy`, module `BuildRules`: the handlers that only transform text:
  `StripColons`, `IsSourceFile`, `_add_deps`, `cc_library` and `workspace`.
- `evaluator.dfy`, module `Evaluator`: the handlers that re-enter evaluation
  (`load`, `exports_files`, `http_archive`, `load_subproject`), plus `glob` as a
  statement. It also holds the name-to-handler tables that `GetDict` builds from
  `BuildFileFunctions` and `WorkspaceFileFunctions`, and the run of a file's calls
  in order that stops at the first failure.
- `evaluator_properties.dfy`, module `EvaluatorProperties`: properties that
  relate several calls or name particular rule kinds.

Modelling choices:

- **Rule files.** A rule file is a given sequence of `Invocation(rule, args, kwargs)`.
  Argument values are strings or lists of strings.
- **Files on disk.** The file system is a `FileSystem(present, rules)` value. It is
  the state after any archive has been downloaded. `present` is the set of paths
  that exist. `rules` holds the parsed calls of each readable rule file.
- **Directory stack.** The stack `interpreter_curdir` is threaded through
  evaluation and returned in the result. As a result, "every push is popped" is
  a proved postcondition (`Settled`).
- **Recursion depth.** Recursion is bounded by a `fuel` argument, and running out
  of fuel is a failure. The translator has no memo and no cycle guard, so a file
  that loads itself recurses until Python raises `RecursionError`. `fuel` stands
  for that limit.
- **Template.** The template boilerplate is a `Template(header, middle, trailer)`
  value, cut at the two placeholders. Every property of `Convert` holds for any
  such text.

Quirks of the source that the model keeps as written:

- `StripColons` drops the first character of every label, whatever it is.
  `"//pkg:x"` becomes `"/pkg:x"`.
- A `:`-label given to `load` has every colon removed before it is joined to the
  top of the directory stack. `":a:b.bzl"` names the file `ab.bzl`.
- `load` with any keyword argument does nothing. `@bazel_tools...` labels,
  `//closure...` labels and every other non-`:` label also do nothing.
- In `http_archive`, a BUILD-only archive is evaluated without pushing its
  directory. Its local loads therefore resolve against the caller's directory.
- Files are never memoised. Loading a file twice evaluates it twice.
- Repository references are never memoised either. The download and extraction
  are skipped when the extracted directory already exists
  (bazel_to_cmake.py:339), but every `http_archive` call evaluates that
  directory again, and nothing stops a cycle of archives. A download that
  fails leaves no WORKSPACE, BUILD or CMakeLists.txt, so `http_archive` fails
  with `assert False`.

## Model

| member | source | states |
|---|---|---|
| CMakeConverter.New | converter.py:4-9 | a fresh converter has empty prelude, toplevel and `if_lua`, no subprojects, and records the given directory |
| CMakeConverter.AddSubproject | converter.py:11-12 | exactly one subproject is appended at the end; earlier subprojects, prelude, toplevel and directory are unchanged |
| CMakeConverter.Convert | converter.py:14-18 | output is header, prelude, middle, toplevel, trailer at fixed offsets, so the prelude always precedes the toplevel text |
| CMakeConverter.ConvertAsWritten | converter.py:14-18 | the method as written reads an undefined module name `converter` and always fails |
| CMakeConverter.ConvertAsWrittenFailsOnFreshProject | converter.py:14-18 | on a fresh project the as-written method fails where the intended one renders the bare template |
| CMakeConverter.SectionsOfConvert | converter.py:14-18 | the prelude and toplevel can be read back out of the rendered text |
| CMakeConverter.ConvertIgnoresOtherFields | converter.py:14-18 | the output depends only on prelude and toplevel, not on subprojects, `if_lua` or directory |
| CMakeConverter.ConvertInjective | converter.py:14-18 | equal outputs with equally long preludes mean equal prelude and toplevel |
| CMakeConverter.ConvertAfterAddSubproject | converter.py:11-18 | adding a subproject does not change what the parent renders |
| CMakeConverter.ConvertNew | converter.py:4-18 | a fresh converter renders as the template with both placeholders empty |
| Strings.Join | bazel_to_cmake.py:63 | `sep.join(xs)`: the empty list joins to the empty string and a single element joins to itself; a longer join is read by `JoinIsPrefixed` |
| Strings.JoinIsPrefixed | bazel_to_cmake.py:63 | a separator followed by a non-empty join is every element, in order, each after its own copy of the separator |
| Strings.PathJoin | bazel_to_cmake.py:91 | `os.path.join(a, b)` starts with `a`, ends with `b`, and has exactly one `/` between them |
| Strings.RemoveAll | bazel_to_cmake.py:90 | `replace(":", "")` removes every occurrence of the character and keeps every other character, as many times as it occurs; a string without it is unchanged |
| Strings.RemoveAllAppend | bazel_to_cmake.py:90 | removal works piece by piece over a concatenation, so the kept characters stay in their original order |
| Strings.RemoveAllTwoColons | bazel_to_cmake.py:88-90 | a label `":" + x + ":" + rest`, with no other colon, names the file `x + rest` |
| Strings.RemoveAllColonsExample | bazel_to_cmake.py:88-91 | the label `":a:b.bzl"` names the file `ab.bzl` |
| BuildRules.StripColons | bazel_to_cmake.py:35-36 | same length and order; each label loses exactly its first character, and an empty label stays empty |
| BuildRules.StripColonsUndoesSigil | bazel_to_cmake.py:35-36 | putting any one-character sigil before each name and stripping gives the names back |
| BuildRules.StripColonsDropsAnyFirstCharacter | bazel_to_cmake.py:35-36 | `"//third_party:zlib"` becomes `"/third_party:zlib"`: the first character goes even if it is not a colon |
| BuildRules.IsSourceFileBySuffix | bazel_to_cmake.py:38-39 | a name is a source file exactly when it is some stem followed by `.c` or `.cc` |
| BuildRules.LinkBlock | bazel_to_cmake.py:60-64 | the link statement opens with `target_link_libraries(`, the name and the keyword, then an indented line, and closes with `)` and a newline; one dependency sits alone on that line |
| BuildRules.LibraryBlock | bazel_to_cmake.py:111-114 | the compiled-library statement opens with `add_library(` and the name, then an indented line, and closes with `)` and a newline; one file sits alone on that line |
| BuildRules.LibraryBlockLines | bazel_to_cmake.py:111-114 | a library statement over a non-empty list names each file, in order, on its own line indented by two spaces |
| BuildRules.InterfaceBlock | bazel_to_cmake.py:120-122 | the header-only statement is `add_library(`, the name and ` INTERFACE)` with a newline, and nothing else |
| BuildRules.LinkBlockLines | bazel_to_cmake.py:60-64 | a link statement over a non-empty list names each dependency, in order, on its own line indented by two spaces |
| BuildRules.AddDeps | bazel_to_cmake.py:57-64 | no `deps` key leaves the converter unchanged; otherwise exactly one link statement over the stripped deps is appended to toplevel; fails exactly when `name` or `deps` is missing or ill-typed |
| BuildRules.AddDepsExample | bazel_to_cmake.py:57-64 | deps `[":a", ":b"]` on `t` give `target_link_libraries(t` with `a` then `b` on their own lines |
| BuildRules.CcLibrary | bazel_to_cmake.py:104-123 | skipped names change nothing; otherwise only toplevel grows, by a compiled `add_library` over srcs+hdrs and a plain link statement when some file is `.c`/`.cc`, else by an INTERFACE `add_library` and an INTERFACE link statement; fails exactly when the arguments are ill-typed |
| BuildRules.CcLibraryAsWritten | bazel_to_cmake.py:104-115 | as written, every non-skipped library takes the compiled branch |
| BuildRules.CcLibraryAsWrittenAgreesWithSources | bazel_to_cmake.py:109-123 | the as-written and intended handlers agree exactly when the name is skipped or some file is a source file |
| BuildRules.CcLibraryAsWrittenMisreadsHeaderOnly | bazel_to_cmake.py:109-114 | as written, the header-only fixture becomes `add_library(iface` over `a.h` |
| BuildRules.CcLibraryHeaderOnlyExample | bazel_to_cmake.py:116-122 | as intended, the header-only fixture becomes `add_library(iface INTERFACE)` |
| BuildRules.CcLibraryCompiledExample | bazel_to_cmake.py:107-114 | `{name: "core", srcs: ["a.c"], hdrs: ["a.h"]}` becomes a compiled library over `a.c` and `a.h` |
| BuildRules.Workspace | bazel_to_cmake.py:326-327 | exactly `project(name)` and a newline are appended to the prelude; nothing else changes; fails exactly when `name` is missing or ill-typed |
| Evaluator.EvalSeq | bazel_to_cmake.py:374 | running a file's calls in order keeps the stack balanced and only grows the converter; in a BUILD file the prelude and subprojects stay unchanged |
| Evaluator.EvalFile | bazel_to_cmake.py:371-374 | evaluating a file keeps the same invariant and fails when the file cannot be read |
| Evaluator.Dispatch | bazel_to_cmake.py:44-49 | every handler call keeps the invariant; a name with no handler in scope fails |
| Evaluator.Load | bazel_to_cmake.py:70-95 | keyword arguments make `load` a no-op; a missing or non-string label fails; any label not starting with `:` is a no-op; a local load keeps the invariant |
| Evaluator.ExportedFiles | bazel_to_cmake.py:180 | `files` binds exactly when there is one positional argument or a `files` keyword, not both, and it is bound to that argument or that keyword's value |
| Evaluator.ExportsFiles | bazel_to_cmake.py:180-184 | exporting keeps the BUILD-file invariant; badly bound arguments fail; a list argument runs the export loop over its names; a bare string changes nothing |
| Evaluator.LoadExports | bazel_to_cmake.py:181-183 | exporting keeps the BUILD-file invariant, and with no `.bzl` name nothing changes; the order of evaluation is stated by `LoadExportsStep` and `LoadExportsAppend` |
| Evaluator.Glob | bazel_to_cmake.py:235-238 | as a statement `glob` leaves the state as it was and succeeds exactly with one single-element pattern, no keywords and a non-empty stack |
| Evaluator.HttpArchive | bazel_to_cmake.py:330-363 | ill-formed calls fail; WORKSPACE adds exactly one subproject rooted at the extracted directory and leaves the rest unchanged; else BUILD keeps prelude and subprojects; else CMakeLists.txt changes nothing; else the call fails; the stack always ends as it began; the nested evaluations are stated by `HttpArchiveSubproject` and `HttpArchiveBuildOnly` |
| Evaluator.LoadSubproject | bazel_to_cmake.py:376-381 | a subproject only grows a fresh converter for its directory, leaves the stack unchanged, and needs both WORKSPACE and BUILD to be readable; what fills it is stated by `LoadSubprojectRunsBothFiles` |
| EvaluatorProperties.UnsupportedRulesFail | bazel_to_cmake.py:128-249 | the `cc_test`, `py_*`, `lua_*`, `sh_test`, `proto_library`, `upb_*`, `genrule`, `config_setting`, `select` and `map_dep` calls always fail |
| EvaluatorProperties.GitRepositoryFails | bazel_to_cmake.py:365-366 | `git_repository` always fails; outside WORKSPACE files it is an undefined name |
| EvaluatorProperties.InertRulesChangeNothing | bazel_to_cmake.py:125-245 | `cc_binary`, `closure_repositories`, `filegroup`, `java_import_external`, `skylark_library` and `package`, called with keywords only, leave the whole state unchanged |
| EvaluatorProperties.LicensesChangesNothing | bazel_to_cmake.py:240-242 | `licenses` succeeds exactly without keyword arguments, and then leaves the whole state unchanged |
| EvaluatorProperties.WorkspaceRulesUndefinedInBuildFiles | bazel_to_cmake.py:371-374 | `workspace` and `http_archive` are undefined names in BUILD and `.bzl` files |
| EvaluatorProperties.CcLibraryCallRouting | bazel_to_cmake.py:104 | a `cc_library` call succeeds exactly when it has no positional argument and acceptable keywords, and then only the converter changes, as `CcLibrary` says |
| EvaluatorProperties.WorkspaceCallRouting | bazel_to_cmake.py:326-327 | a `workspace` call in a WORKSPACE file succeeds exactly when it has no positional argument and a string `name`, whatever other keywords it has, and then only the converter changes, as `Workspace` says |
| EvaluatorProperties.WorkspaceCallAppendsProject | bazel_to_cmake.py:326-327 | a `workspace(name = n)` call in a WORKSPACE file appends `project(n)` to the prelude and nothing else |
| EvaluatorProperties.LoadLocalLabel | bazel_to_cmake.py:88-91 | a `:` label evaluates the file at the top directory joined with the label stripped of every colon |
| EvaluatorProperties.LoadCallRouting | bazel_to_cmake.py:70 | a `load` call reaches the `load` handler in either scope |
| EvaluatorProperties.HttpArchiveCallRouting | bazel_to_cmake.py:330 | in a WORKSPACE file, an `http_archive` call is the archive handler |
| EvaluatorProperties.ExportsFilesCallRouting | bazel_to_cmake.py:180 | an `exports_files` call is the export handler, in either scope |
| EvaluatorProperties.GlobCallRouting | bazel_to_cmake.py:235 | a `glob` call is the glob handler, in either scope |
| EvaluatorProperties.EvalSeqAppend | bazel_to_cmake.py:374 | running two call sequences one after the other is running their concatenation, and a failure in the first part is the failure of the whole |
| EvaluatorProperties.EvalSeqFirstFailure | bazel_to_cmake.py:374 | a failing first call fails the whole file |
| EvaluatorProperties.EvalFileRunsCalls | bazel_to_cmake.py:371-374 | with depth left, a readable file is evaluated by running its calls |
| EvaluatorProperties.SelfLoadNeverSucceeds | bazel_to_cmake.py:88-91 | a file whose first call loads itself never succeeds, at any depth bound, because no cycle guard exists |
| EvaluatorProperties.EvalSeqSingle | bazel_to_cmake.py:374 | a one-call sequence is that call; with `EvalSeqAppend`, each call runs on the state the previous call produced |
| EvaluatorProperties.LoadExportsStep | bazel_to_cmake.py:181-183 | a `.bzl` name first evaluates that file at the top directory, then the remaining names run on the state it produced; its failure is the failure of the whole |
| EvaluatorProperties.LoadExportsSkip | bazel_to_cmake.py:181-182 | any other name is passed over |
| EvaluatorProperties.LoadExportsAppend | bazel_to_cmake.py:181-183 | exporting two name lists one after the other is exporting their concatenation, so the `.bzl` files run in list order |
| EvaluatorProperties.HttpArchiveSubproject | bazel_to_cmake.py:353-357 | with a WORKSPACE, the subproject is loaded with the extracted directory pushed, appended to the current converter, and the stack ends as it began; a failure of the subproject is the failure of the call |
| EvaluatorProperties.HttpArchiveBuildOnly | bazel_to_cmake.py:358-359 | with a BUILD but no WORKSPACE, the call is the evaluation of that BUILD file into the current converter, with the stack not pushed |
| EvaluatorProperties.LoadSubprojectRunsBothFiles | bazel_to_cmake.py:376-381 | with depth left, a subproject is the WORKSPACE calls run on a fresh converter for the directory, then the BUILD calls run on that result |

## Findings

| source | as written | input that shows it | evidently intended | confidence | as-written member | corrected member |
|---|---|---|---|---|---|---|
| bazel_to_cmake.py:109 | `if filter(IsSourceFile, files):` tests a Python 3 filter object, which is always truthy | `{name: "iface", hdrs: ["a.h"]}` yields `add_library(iface` over `a.h` instead of an INTERFACE library (`CcLibraryAsWrittenMisreadsHeaderOnly`) | the branch is taken when some file is a `.c`/`.cc` source, as the header-only comment at lines 116-119 shows | not executed; high: the script targets Python 3 (`makedirs(exist_ok=...)`) | BuildRules.CcLibraryAsWritten | BuildRules.CcLibrary |
| converter.py:16-17 | `convert` reads `converter.prelude` and `converter.toplevel`, and converter.py defines no `converter` | any call, e.g. on a fresh `Converter(".")`, raises `NameError` (`ConvertAsWrittenFailsOnFreshProject`) | read `self.prelude` and `self.toplevel` | not executed; high | CMakeConverter.ConvertAsWritten | CMakeConverter.Convert |

## Left out

- Running rule files as host Python through `exec` and `GetDict`. Rule files are given as call sequences, so variables, `def`, expressions and builtins such as `print` are not modelled.
- The download loop of `http_archive` (`wget`, `tarfile`, swallowed exceptions, bazel_to_cmake.py:337-351) and all file I/O. The `FileSystem` argument is the state after downloading.
- `glob` as an argument expression, and its file-system expansion. Argument values are plain strings. Only `glob` called as a statement is modelled, with its argument checks.
- Code after `return` in `load` (bazel_to_cmake.py:79-87, 96-102) and in `skylark_library` (bazel_to_cmake.py:211-223), the commented-out body of `cc_test`, and the string-literal `load` at bazel_to_cmake.py:293-324. None of it can run.
- The module-level driver and output write (bazel_to_cmake.py:368-390), and all logging. As written, the driver discards the converter that `load_subproject(os.curdir)` returns (bazel_to_cmake.py:383), opens and so truncates the output file (bazel_to_cmake.py:389), and then calls `convert` on the empty global converter (bazel_to_cmake.py:390), which raises `NameError` as written (see the second finding), so nothing is written.
- The literal template text (converter.py:20-83). It is a `Template` value.
- Edge cases of `os.path.join`: absolute parts, and parts that already end in `/`. `PathJoin` always concatenates with `/`.
- Names that `exec` also sees but that are not rule methods: the `Converter` class attributes `add_subproject`, `convert` and `template`, and the handler's `converter` attribute. A call of one of these is treated as an undefined name.
- Which exception is raised. The model records only that the run fails, with a descriptive `Failure` value. Rules whose bodies are `assert False` fail whether or not their arguments fit.
- The exact recursion limit. `fuel` bounds the nesting depth of file evaluation instead.
- CcLibrary: a `name` that is a list fails, although Python would format its repr into the text. `srcs` and `hdrs` given as bare strings fail, although Python concatenates two strings and then lists every character. `deps` given as a bare string fails, although Python strips each character to an empty line.
- Workspace: a `name` that is a list fails, although Python would format its repr.
- AddDeps: `deps` given as a bare string fails, although Python strips each character to an empty line. A `name` that is a list fails, although Python would format its repr into the text.

=== FILE: converter.dfy ===
/** The `Converter` record of converter.py: the accumulated CMake text of one
    project plus its nested subprojects, and its rendering through the fixed
    CMake template. */
module CMakeConverter {
  import opened Results
  import opened Strings

  /** One project's translation state. `ifLua` is initialised and never read. */
  datatype Converter = Converter(
    prelude: string,
    toplevel: string,
    ifLua: string,
    subprojects: seq<Converter>,
    projDir: Path)

  /** The fixed boilerplate of the CMake template, cut at its two placeholders:
      `header` precedes `%(prelude)s`, `middle` lies between the placeholders and
      `trailer` follows `%(toplevel)s`. The literal text is not reproduced. */
  datatype Template = Template(header: string, middle: string, trailer: string)

  /** `Converter(proj_dir)`: a project with no text and no subprojects yet. */
  function New(projDir: Path): (c: Converter)
    ensures c.prelude == [] && c.toplevel == [] && c.ifLua == []
    ensures c.subprojects == []
    ensures c.projDir == projDir
  {
    Converter("", "", "", [], projDir)
  }

  /** `add_subproject`: exactly one subproject appended at the end, all else kept. */
  function AddSubproject(c: Converter, sub: Converter): (r: Converter)
    ensures |r.subprojects| == |c.subprojects| + 1
    ensures r.subprojects[..|c.subprojects|] == c.subprojects
    ensures r.subprojects[|c.subprojects|] == sub
    ensures r.prelude == c.prelude && r.toplevel == c.toplevel
    ensures r.ifLua == c.ifLua && r.projDir == c.projDir
  {
    c.(subprojects := c.subprojects + [sub])
  }

  /** `convert` as intended: the template with the project's own prelude and
      toplevel substituted. Each piece sits at a fixed offset, so the prelude
      always precedes the toplevel text. */
  function Convert(c: Converter, t: Template): (out: string)
    ensures |out| == |t.header| + |c.prelude| + |t.middle| + |c.toplevel| + |t.trailer|
    ensures StartsWith(out, t.header) && EndsWith(out, t.trailer)
    ensures out[|t.header|..|t.header| + |c.prelude|] == c.prelude
    ensures out[|t.header| + |c.prelude|..|t.header| + |c.prelude| + |t.middle|] == t.middle
    ensures out[|t.header| + |c.prelude| + |t.middle|..|out| - |t.trailer|] == c.toplevel
  {
    t.header + c.prelude + t.middle + c.toplevel + t.trailer
  }

  /** `convert` as written: its body reads a module-level name `converter` that
      converter.py never defines, so every call raises `NameError`. */
  function ConvertAsWritten(c: Converter, t: Template): (r: Result<string>)
    ensures r.Err? && r.error == UndefinedName("converter")
  {
    Err(UndefinedName("converter"))
  }

  /** The smallest witness: a fresh project, which `convert` should render as
      the bare template, makes the as-written method raise instead. */
  lemma ConvertAsWrittenFailsOnFreshProject(t: Template)
    ensures ConvertAsWritten(New("."), t).Err?
    ensures Convert(New("."), t) == t.header + t.middle + t.trailer
  {
  }

  /** Reads the prelude and toplevel back out of a rendered file, given the
      template and the prelude's length. */
  function Sections(out: string, t: Template, preludeLength: nat): (parts: (string, string))
    requires |t.header| + preludeLength + |t.middle| + |t.trailer| <= |out|
  {
    var a := |t.header|;
    var b := a + preludeLength;
    (out[a..b], out[b + |t.middle|..|out| - |t.trailer|])
  }

  /** Rendering loses nothing: the prelude and toplevel can be read back. */
  lemma SectionsOfConvert(c: Converter, t: Template)
    ensures Sections(Convert(c, t), t, |c.prelude|) == (c.prelude, c.toplevel)
  {
  }

  /** The output is a function of the prelude and toplevel alone: subprojects,
      `ifLua` and the project directory do not reach it. */
  lemma ConvertIgnoresOtherFields(c: Converter, d: Converter, t: Template)
    requires c.prelude == d.prelude && c.toplevel == d.toplevel
    ensures Convert(c, t) == Convert(d, t)
  {
  }

  /** Two projects with equally long preludes render alike only if their text agrees. */
  lemma ConvertInjective(c: Converter, d: Converter, t: Template)
    requires |c.prelude| == |d.prelude|
    requires Convert(c, t) == Convert(d, t)
    ensures c.prelude == d.prelude && c.toplevel == d.toplevel
  {
  }

  /** Adding a subproject does not change what the parent renders. */
  lemma ConvertAfterAddSubproject(c: Converter, sub: Converter, t: Template)
    ensures Convert(AddSubproject(c, sub), t) == Convert(c, t)
  {
  }

  /** A fresh project renders as the bare template. */
  lemma ConvertNew(projDir: Path, t: Template)
    ensures Convert(New(projDir), t) == t.header + t.middle + t.trailer
  {
  }
}

=== FILE: evaluator.dfy ===
/** Evaluation of rule files: the name-to-handler tables that `GetDict` builds
    from `BuildFileFunctions` and `WorkspaceFileFunctions`, the handlers that
    re-enter evaluation (`load`, `exports_files`, `http_archive`), and the
    statement-by-statement run of one file that stops at the first failure.

    Recursion is bounded by `fuel`, which stands for the host interpreter's
    recursion limit: nothing in the translator guards against a file that
    loads itself, so running out of fuel is a failure, as `RecursionError` is. */
module Evaluator {
  import opened Results
  import opened Strings
  import opened CMakeConverter
  import opened BuildRules

  /** What the files on disk look like once every archive has been fetched:
      the paths that exist, and the calls of each readable rule file. */
  datatype FileSystem = FileSystem(present: set<Path>, rules: map<Path, seq<Invocation>>)

  /** `os.path.exists` */
  predicate Exists(fs: FileSystem, p: Path) {
    p in fs.present
  }

  /** `open(p).read()`, already split into top-level calls. */
  function Read(fs: FileSystem, p: Path): (r: Result<seq<Invocation>>)
    ensures r.Ok? <==> p in fs.rules
    ensures r.Ok? ==> r.value == fs.rules[p]
  {
    if p in fs.rules then Ok(fs.rules[p]) else Err(NoSuchFile(p))
  }

  /** Which handler object's names a file is evaluated against: BUILD and
      `.bzl` files see `BuildFileFunctions`, WORKSPACE files see
      `WorkspaceFileFunctions`, which adds three workspace rules. */
  datatype Scope = BuildScope | WorkspaceScope

  /** The converter being filled and the directory stack `interpreter_curdir`. */
  datatype State = State(conv: Converter, dirs: seq<Path>)

  /** `interpreter_curdir[-1]` */
  function Top(dirs: seq<Path>): (r: Result<Path>)
    ensures r.Ok? <==> |dirs| > 0
    ensures r.Ok? ==> r.value == dirs[|dirs| - 1]
  {
    if |dirs| == 0 then Err(EmptyDirectoryStack) else Ok(dirs[|dirs| - 1])
  }

  /** The argument forms a handler's Python signature admits. */
  datatype Shape = KeywordsOnly | PositionalOnly | AnyArguments

  predicate Fits(shape: Shape, call: Invocation) {
    match shape
    case KeywordsOnly => |call.args| == 0
    case PositionalOnly => call.kwargs == map[]
    case AnyArguments => true
  }

  datatype Option<+T> = None | Some(value: T)

  /** What a `BuildFileFunctions` method does with a call. */
  datatype Handler =
    | Fails                  // the body is `assert False`
    | Inert(shape: Shape)    // the body only passes, returns or prints
    | CcLibraryRule
    | LoadRule
    | ExportsFilesRule
    | GlobRule

  /** The three methods only `WorkspaceFileFunctions` has. */
  datatype WorkspaceHandler = ProjectRule | HttpArchiveRule | GitRepositoryRule

  /** Methods of `BuildFileFunctions` whose body is `assert False`. */
  const UnsupportedRules: set<string> := {
    "attr", "cc_test", "py_library", "py_binary", "lua_cclibrary", "lua_library", "lua_binary",
    "lua_test", "sh_test", "make_shell_script", "proto_library", "generated_file_staleness_test",
    "upb_amalgamation", "upb_proto_library", "upb_proto_reflection_library", "genrule",
    "config_setting", "select", "map_dep"
  }

  /** Methods of `BuildFileFunctions` that take only keyword arguments and
      only pass, return or print. */
  const KeywordNoOps: set<string> := {
    "cc_binary", "closure_repositories", "filegroup", "java_import_external", "skylark_library",
    "package", "bazel_toolchains_repositories", "container_repositories", "remote_config_workspace",
    "swift_rules_dependencies", "android_configure", "android_workspace", "tf_bind",
    "bazel_toolchains_archive", "tf_repositories"
  }

  /** No-op methods taking `*args, **kwargs`. */
  const AnyArgumentNoOps: set<string> := {"check_bazel_version_at_least", "register_toolchains"}

  /** The public methods of `BuildFileFunctions`, by name: what `GetDict`
      exposes to BUILD and `.bzl` files (`licenses` takes only `*args`). */
  function BuildHandlerOf(name: string): Option<Handler> {
    if name == "cc_library" then Some(CcLibraryRule)
    else if name == "load" then Some(LoadRule)
    else if name == "exports_files" then Some(ExportsFilesRule)
    else if name == "glob" then Some(GlobRule)
    else if name == "licenses" then Some(Inert(PositionalOnly))
    else if name in UnsupportedRules then Some(Fails)
    else if name in KeywordNoOps then Some(Inert(KeywordsOnly))
    else if name in AnyArgumentNoOps then Some(Inert(AnyArguments))
    else None
  }

  /** The methods `WorkspaceFileFunctions` adds to the inherited ones. */
  function WorkspaceHandlerOf(name: string): Option<WorkspaceHandler> {
    if name == "workspace" then Some(ProjectRule)
    else if name == "http_archive" then Some(HttpArchiveRule)
    else if name == "git_repository" then Some(GitRepositoryRule)
    else None
  }

  /** The converter only grew: each text and the subproject list keep their
      old contents as a prefix, and the other fields are unchanged. */
  predicate Grows(before: Converter, after: Converter) {
    && before.prelude <= after.prelude
    && before.toplevel <= after.toplevel
    && before.subprojects <= after.subprojects
    && after.ifLua == before.ifLua
    && after.projDir == before.projDir
  }

  /** What every successful evaluation step guarantees: the directory stack is
      back where it was, the converter only grew, and a build-scope step
      touched neither the prelude nor the subprojects. */
  predicate Settled(scope: Scope, before: State, after: State) {
    && after.dirs == before.dirs
    && Grows(before.conv, after.conv)
    && (scope == BuildScope ==>
          after.conv.prelude == before.conv.prelude && after.conv.subprojects == before.conv.subprojects)
  }

  /** `exec` of one file's calls in order; the first failure aborts the rest. */
  function EvalSeq(fs: FileSystem, scope: Scope, st: State, calls: seq<Invocation>, fuel: nat): (r: Result<State>)
    ensures r.Ok? ==> Settled(scope, st, r.value)
    decreases fuel, 5, |calls|
  {
    if |calls| == 0 then Ok(st)
    else
      var next :- Dispatch(fs, scope, st, calls[0], fuel);
      EvalSeq(fs, scope, next, calls[1..], fuel)
  }

  /** `load_bazel_file` (and the WORKSPACE half of `load_subproject`): read the
      file and run its calls into the same converter. */
  function EvalFile(fs: FileSystem, scope: Scope, st: State, path: Path, fuel: nat): (r: Result<State>)
    ensures r.Ok? ==> Settled(scope, st, r.value)
    ensures path !in fs.rules ==> r.Err?
    decreases fuel, 0, 0
  {
    if fuel == 0 then Err(RecursionLimit)
    else
      var calls :- Read(fs, path);
      EvalSeq(fs, scope, st, calls, fuel - 1)
  }

  /** Routes one call to the handler of that name in scope. */
  function Dispatch(fs: FileSystem, scope: Scope, st: State, call: Invocation, fuel: nat): (r: Result<State>)
    ensures r.Ok? ==> Settled(scope, st, r.value)
    ensures (scope == BuildScope || WorkspaceHandlerOf(call.rule).None?) && BuildHandlerOf(call.rule).None? ==>
      r == Err(UndefinedName(call.rule))
    decreases fuel, 4, 0
  {
    if scope == WorkspaceScope && WorkspaceHandlerOf(call.rule).Some? then
      match WorkspaceHandlerOf(call.rule).value
      case ProjectRule =>
        if |call.args| > 0 then Err(BadArguments(call.rule))
        else
          var c :- Workspace(st.conv, call.kwargs);
          Ok(st.(conv := c))
      case HttpArchiveRule => HttpArchive(fs, st, call, fuel)
      case GitRepositoryRule => Err(Unsupported(call.rule))
    else if BuildHandlerOf(call.rule).Some? then
      match BuildHandlerOf(call.rule).value
      case Fails => Err(Unsupported(call.rule))
      case Inert(shape) => if Fits(shape, call) then Ok(st) else Err(BadArguments(call.rule))
      case CcLibraryRule =>
        if |call.args| > 0 then Err(BadArguments(call.rule))
        else
          var c :- CcLibrary(st.conv, call.kwargs);
          Ok(st.(conv := c))
      case LoadRule => Load(fs, st, call, fuel)
      case ExportsFilesRule => ExportsFiles(fs, st, call, fuel)
      case GlobRule => Glob(st, call)
    else Err(UndefinedName(call.rule))
  }

  /** `load`: keyword arguments make it a no-op; a `:`-label is a local file,
      evaluated (with every colon removed from the label) into the same
      converter; `@bazel_tools`, `//closure` and every other label are skipped. */
  function Load(fs: FileSystem, st: State, call: Invocation, fuel: nat): (r: Result<State>)
    ensures r.Ok? ==> Settled(BuildScope, st, r.value)
    ensures call.kwargs != map[] ==> r == Ok(st)
    ensures call.kwargs == map[] && (|call.args| == 0 || call.args[0].Strs?) ==> r.Err?
    ensures call.kwargs == map[] && |call.args| > 0 && call.args[0].Str? && !StartsWith(call.args[0].s, ":") ==>
      r == Ok(st)
    decreases fuel, 2, 0
  {
    if call.kwargs != map[] then Ok(st)
    else if |call.args| == 0 then Err(BadArguments("load"))
    else
      match call.args[0]
      case Strs(_) => Err(BadArguments("load"))
      case Str(url) =>
        if StartsWith(url, "@bazel_tools") then Ok(st)
        else if StartsWith(url, ":") then
          var top :- Top(st.dirs);
          EvalFile(fs, BuildScope, st, PathJoin(top, RemoveAll(url, ':')), fuel)
        else Ok(st)  // `//closure...` returns at once; any other label matches no branch
  }

  /** The `files` argument of `exports_files(files, **kwargs)`. */
  function ExportedFiles(call: Invocation): (r: Result<Value>)
    ensures r.Ok? <==> (|call.args| == 1 && "files" !in call.kwargs) || (|call.args| == 0 && "files" in call.kwargs)
    ensures r.Ok? && |call.args| == 1 ==> r.value == call.args[0]
    ensures r.Ok? && |call.args| == 0 ==> r.value == call.kwargs["files"]
  {
    if |call.args| == 1 && "files" !in call.kwargs then Ok(call.args[0])
    else if |call.args| == 0 && "files" in call.kwargs then Ok(call.kwargs["files"])
    else Err(BadArguments("exports_files"))
  }

  /** `exports_files`: every exported `.bzl` file is evaluated, in order, into
      the same converter. A bare string iterates as one-character names, none of
      which ends in `.bzl`. */
  function ExportsFiles(fs: FileSystem, st: State, call: Invocation, fuel: nat): (r: Result<State>)
    ensures r.Ok? ==> Settled(BuildScope, st, r.value)
    ensures ExportedFiles(call).Err? ==> r.Err?
    ensures ExportedFiles(call).Ok? && ExportedFiles(call).value.Strs? ==>
      r == LoadExports(fs, st, ExportedFiles(call).value.items, fuel)
    ensures ExportedFiles(call).Ok? && ExportedFiles(call).value.Str? ==> r == Ok(st)
    decreases fuel, 3, 0
  {
    var files :- ExportedFiles(call);
    match files
    case Str(_) => Ok(st)
    case Strs(names) => LoadExports(fs, st, names, fuel)
  }

  /** The loop of `exports_files` over the names. */
  function LoadExports(fs: FileSystem, st: State, names: seq<string>, fuel: nat): (r: Result<State>)
    ensures r.Ok? ==> Settled(BuildScope, st, r.value)
    ensures (forall i :: 0 <= i < |names| ==> !EndsWith(names[i], ".bzl")) ==> r == Ok(st)
    decreases fuel, 2, |names|
  {
    if |names| == 0 then Ok(st)
    else if EndsWith(names[0], ".bzl") then
      var top :- Top(st.dirs);
      var next :- EvalFile(fs, BuildScope, st, PathJoin(top, names[0]), fuel);
      LoadExports(fs, next, names[1..], fuel)
    else LoadExports(fs, st, names[1..], fuel)
  }

  /** The length Python's `len` gives an argument. */
  function ArgLength(v: Value): nat {
    match v
    case Str(s) => |s|
    case Strs(items) => |items|
  }

  /** `glob` used as a statement: it checks its single pattern and otherwise
      only reads the file system, so the state is unchanged. */
  function Glob(st: State, call: Invocation): (r: Result<State>)
    ensures r.Ok? <==> call.kwargs == map[] && |call.args| > 0 && ArgLength(call.args[0]) == 1 && |st.dirs| > 0
    ensures r.Ok? ==> r.value == st
  {
    if call.kwargs != map[] || |call.args| == 0 then Err(BadArguments("glob"))
    else if ArgLength(call.args[0]) != 1 then Err(GlobPattern)
    else
      var _ :- Top(st.dirs);
      Ok(st)
  }

  /** The arguments an `http_archive` call needs to get as far as inspecting
      the extracted directory. */
  predicate ArchiveCallWellFormed(st: State, call: Invocation) {
    && |call.args| == 0
    && "name" in call.kwargs && call.kwargs["name"].Str?
    && "strip_prefix" in call.kwargs && call.kwargs["strip_prefix"].Str?
    && "urls" in call.kwargs
    && |st.dirs| > 0
  }

  /** `extracted_dir = join(join(top, name), strip_prefix)` */
  function ExtractedDir(st: State, call: Invocation): Path
    requires ArchiveCallWellFormed(st, call)
  {
    PathJoin(PathJoin(st.dirs[|st.dirs| - 1], call.kwargs["name"].s), call.kwargs["strip_prefix"].s)
  }

  /** `http_archive` after the download: the extracted directory is a
      subproject if it holds a WORKSPACE (evaluated with the directory pushed,
      then popped), else its BUILD file is evaluated into the current converter,
      else a CMakeLists.txt needs nothing, else the repository is missing. */
  function HttpArchive(fs: FileSystem, st: State, call: Invocation, fuel: nat): (r: Result<State>)
    ensures r.Ok? ==> Settled(WorkspaceScope, st, r.value)
    ensures !ArchiveCallWellFormed(st, call) ==> r.Err?
    ensures ArchiveCallWellFormed(st, call) && Exists(fs, PathJoin(ExtractedDir(st, call), "WORKSPACE")) && r.Ok? ==>
      && |r.value.conv.subprojects| == |st.conv.subprojects| + 1
      && r.value.conv == AddSubproject(st.conv, r.value.conv.subprojects[|st.conv.subprojects|])
      && r.value.conv.subprojects[|st.conv.subprojects|].projDir == ExtractedDir(st, call)
    ensures ArchiveCallWellFormed(st, call) && !Exists(fs, PathJoin(ExtractedDir(st, call), "WORKSPACE"))
            && Exists(fs, PathJoin(ExtractedDir(st, call), "BUILD")) && r.Ok? ==>
      Settled(BuildScope, st, r.value)
    ensures ArchiveCallWellFormed(st, call) && !Exists(fs, PathJoin(ExtractedDir(st, call), "WORKSPACE"))
            && !Exists(fs, PathJoin(ExtractedDir(st, call), "BUILD")) ==>
      (r.Ok? <==> Exists(fs, PathJoin(ExtractedDir(st, call), "CMakeLists.txt"))) && (r.Ok? ==> r.value == st)
    decreases fuel, 2, 0
  {
    if |call.args| > 0 then Err(BadArguments("http_archive"))
    else
      var name :- GetString(call.kwargs, "name");
      var top :- Top(st.dirs);
      var strip :- GetString(call.kwargs, "strip_prefix");
      if "urls" !in call.kwargs then Err(MissingKey("urls"))
      else
        var extracted := PathJoin(PathJoin(top, name), strip);
        if Exists(fs, PathJoin(extracted, "WORKSPACE")) then
          var sub :- LoadSubproject(fs, st.dirs + [extracted], extracted, fuel);
          Ok(State(AddSubproject(st.conv, sub.conv), sub.dirs[..|sub.dirs| - 1]))
        else if Exists(fs, PathJoin(extracted, "BUILD")) then
          EvalFile(fs, BuildScope, st, PathJoin(extracted, "BUILD"), fuel)
        else if Exists(fs, PathJoin(extracted, "CMakeLists.txt")) then Ok(st)
        else Err(RepositoryNotFound(name))
  }

  /** `load_subproject`: a fresh converter for the directory, filled from its
      WORKSPACE file and then from its BUILD file; both must be readable. */
  function LoadSubproject(fs: FileSystem, dirs: seq<Path>, projDir: Path, fuel: nat): (r: Result<State>)
    ensures r.Ok? ==> r.value.dirs == dirs && Grows(New(projDir), r.value.conv)
    ensures r.Ok? ==> PathJoin(projDir, "WORKSPACE") in fs.rules && PathJoin(projDir, "BUILD") in fs.rules
    decreases fuel, 1, 0
  {
    var ws :- EvalFile(fs, WorkspaceScope, State(New(projDir), dirs), PathJoin(projDir, "WORKSPACE"), fuel);
    EvalFile(fs, BuildScope, ws, PathJoin(projDir, "BUILD"), fuel)
  }
}

=== FILE: evaluator_properties.dfy ===
/** Properties of rule-file evaluation that relate several calls or name
    particular rule kinds. */
module EvaluatorProperties {
  import opened Results
  import opened Strings
  import opened CMakeConverter
  import opened BuildRules
  import opened Evaluator

  /** Methods of `BuildFileFunctions` the translator rejects outright:
      reaching one aborts the run, in BUILD and WORKSPACE files alike. */
  lemma UnsupportedRulesFail(fs: FileSystem, scope: Scope, st: State, call: Invocation, fuel: nat)
    requires call.rule in {"cc_test", "py_library", "py_binary", "lua_cclibrary", "lua_library",
                           "lua_binary", "lua_test", "sh_test", "proto_library", "upb_amalgamation",
                           "upb_proto_library", "upb_proto_reflection_library", "genrule",
                           "config_setting", "select", "map_dep"}
    ensures Dispatch(fs, scope, st, call, fuel).Err?
  {
  }

  /** `git_repository` fails in a WORKSPACE file (its body is `assert False`)
      and is an undefined name anywhere else. */
  lemma GitRepositoryFails(fs: FileSystem, scope: Scope, st: State, call: Invocation, fuel: nat)
    requires call.rule == "git_repository"
    ensures Dispatch(fs, scope, st, call, fuel).Err?
    ensures scope == BuildScope ==> Dispatch(fs, scope, st, call, fuel) == Err(UndefinedName(call.rule))
  {
  }

  /** Keyword-only rule kinds accepted and ignored: a call without positional
      arguments leaves the whole state as it was. */
  lemma InertRulesChangeNothing(fs: FileSystem, scope: Scope, st: State, call: Invocation, fuel: nat)
    requires call.rule in {"cc_binary", "closure_repositories", "filegroup", "java_import_external",
                           "skylark_library", "package"}
    requires |call.args| == 0
    ensures Dispatch(fs, scope, st, call, fuel) == Ok(st)
  {
  }

  /** `licenses(...)` with positional arguments only is accepted and ignored;
      a keyword argument does not fit its signature. */
  lemma LicensesChangesNothing(fs: FileSystem, scope: Scope, st: State, call: Invocation, fuel: nat)
    requires call.rule == "licenses"
    ensures Dispatch(fs, scope, st, call, fuel).Ok? <==> call.kwargs == map[]
    ensures Dispatch(fs, scope, st, call, fuel).Ok? ==> Dispatch(fs, scope, st, call, fuel).value == st
  {
  }

  /** `workspace` and `http_archive` exist only for WORKSPACE files; a BUILD or
      `.bzl` file that calls them fails. */
  lemma WorkspaceRulesUndefinedInBuildFiles(fs: FileSystem, st: State, call: Invocation, fuel: nat)
    requires call.rule in {"workspace", "http_archive"}
    ensures Dispatch(fs, BuildScope, st, call, fuel) == Err(UndefinedName(call.rule))
  {
  }

  /** A `cc_library` call is routed to the library handler, in either scope,
      and only the converter changes. */
  lemma CcLibraryCallRouting(fs: FileSystem, scope: Scope, st: State, call: Invocation, fuel: nat)
    requires call.rule == "cc_library"
    ensures Dispatch(fs, scope, st, call, fuel).Ok? <==> |call.args| == 0 && CcLibraryAccepts(call.kwargs)
    ensures Dispatch(fs, scope, st, call, fuel).Ok? ==>
      Dispatch(fs, scope, st, call, fuel).value == State(CcLibrary(st.conv, call.kwargs).value, st.dirs)
  {
  }

  /** A `workspace` call in a WORKSPACE file appends `project(name)` to the
      prelude and nothing else. */
  lemma WorkspaceCallAppendsProject(fs: FileSystem, st: State, name: string, fuel: nat)
    ensures Dispatch(fs, WorkspaceScope, st, Invocation("workspace", [], map["name" := Str(name)]), fuel)
         == Ok(st.(conv := st.conv.(prelude := st.conv.prelude + "project(" + name + ")\n")))
  {
  }

  /** A local `:`-label, with no keyword arguments, evaluates the named file
      relative to the top of the directory stack, every colon removed. */
  lemma LoadLocalLabel(fs: FileSystem, st: State, url: string, fuel: nat)
    requires StartsWith(url, ":") && |st.dirs| > 0
    ensures Load(fs, st, Invocation("load", [Str(url)], map[]), fuel)
         == EvalFile(fs, BuildScope, st, PathJoin(st.dirs[|st.dirs| - 1], RemoveAll(url, ':')), fuel)
  {
  }

  /** Running two call sequences back to back is running their concatenation:
      evaluation is a left fold, and a failure in the first part is the
      failure of the whole. */
  lemma {:induction false} EvalSeqAppend(fs: FileSystem, scope: Scope, st: State, a: seq<Invocation>, b: seq<Invocation>, fuel: nat)
    ensures EvalSeq(fs, scope, st, a + b, fuel)
         == (match EvalSeq(fs, scope, st, a, fuel)
             case Ok(mid) => EvalSeq(fs, scope, mid, b, fuel)
             case Err(e) => Err(e))
    decreases |a|
  {
    if |a| == 0 {
      assert a + b == b;
    } else {
      assert (a + b)[0] == a[0];
      assert (a + b)[1..] == a[1..] + b;
      match Dispatch(fs, scope, st, a[0], fuel)
      case Err(e) =>
      case Ok(next) =>
        EvalSeqAppend(fs, scope, next, a[1..], b, fuel);
    }
  }

  /** `load` calls reach the `load` handler in either scope. */
  lemma LoadCallRouting(fs: FileSystem, scope: Scope, st: State, call: Invocation, fuel: nat)
    requires call.rule == "load"
    ensures Dispatch(fs, scope, st, call, fuel) == Load(fs, st, call, fuel)
  {
  }

  /** Removing the colons of `":" + name` gives `name` back when `name` has none. */
  lemma RemoveLeadingColon(name: string)
    requires ':' !in name
    ensures RemoveAll(":" + name, ':') == name
  {
  }

  /** With fuel left, evaluating a readable file runs its calls. */
  lemma EvalFileRunsCalls(fs: FileSystem, scope: Scope, st: State, path: Path, fuel: nat)
    requires fuel > 0 && path in fs.rules
    ensures EvalFile(fs, scope, st, path, fuel) == EvalSeq(fs, scope, st, fs.rules[path], fuel - 1)
  {
  }

  /** A failing first call fails the whole sequence. */
  lemma EvalSeqFirstFailure(fs: FileSystem, scope: Scope, st: State, calls: seq<Invocation>, fuel: nat)
    requires |calls| > 0 && Dispatch(fs, scope, st, calls[0], fuel).Err?
    ensures EvalSeq(fs, scope, st, calls, fuel).Err?
  {
  }

  /** A file whose first call loads the file itself never finishes: with no
      cycle guard the evaluation recurses until the recursion limit. */
  lemma {:induction false} SelfLoadNeverSucceeds(fs: FileSystem, scope: Scope, st: State, name: string, fuel: nat)
    requires |st.dirs| > 0 && ':' !in name
    requires PathJoin(st.dirs[|st.dirs| - 1], name) in fs.rules
    requires |fs.rules[PathJoin(st.dirs[|st.dirs| - 1], name)]| > 0
    requires fs.rules[PathJoin(st.dirs[|st.dirs| - 1], name)][0] == Invocation("load", [Str(":" + name)], map[])
    ensures EvalFile(fs, scope, st, PathJoin(st.dirs[|st.dirs| - 1], name), fuel).Err?
    decreases fuel
  {
    var path := PathJoin(st.dirs[|st.dirs| - 1], name);
    if fuel == 0 {
      assert EvalFile(fs, scope, st, path, fuel) == Err(RecursionLimit);
    } else {
      var calls := fs.rules[path];
      SelfLoadNeverSucceeds(fs, BuildScope, st, name, fuel - 1);
      LoadOwnFile(fs, st, calls[0], name, fuel - 1);
      LeadingLoadFails(fs, scope, st, calls, fuel - 1);
      EvalFileRunsCalls(fs, scope, st, path, fuel);
    }
  }

  /** Loading `":" + name` from a directory evaluates that directory's `name`. */
  lemma LoadOwnFile(fs: FileSystem, st: State, call: Invocation, name: string, fuel: nat)
    requires |st.dirs| > 0 && ':' !in name
    requires call == Invocation("load", [Str(":" + name)], map[])
    ensures Load(fs, st, call, fuel) == EvalFile(fs, BuildScope, st, PathJoin(st.dirs[|st.dirs| - 1], name), fuel)
  {
    RemoveLeadingColon(name);
    LoadLocalLabel(fs, st, ":" + name, fuel);
  }

  /** A sequence whose first call is a failing `load` fails. */
  lemma LeadingLoadFails(fs: FileSystem, scope: Scope, st: State, calls: seq<Invocation>, fuel: nat)
    requires |calls| > 0 && calls[0].rule == "load" && Load(fs, st, calls[0], fuel).Err?
    ensures EvalSeq(fs, scope, st, calls, fuel).Err?
  {
    LoadCallRouting(fs, scope, st, calls[0], fuel);
    EvalSeqFirstFailure(fs, scope, st, calls, fuel);
  }

  /** A one-call sequence is that call: together with `EvalSeqAppend` this
      makes evaluation the left fold that threads each call's result into the
      next call. */
  lemma EvalSeqSingle(fs: FileSystem, scope: Scope, st: State, call: Invocation, fuel: nat)
    ensures EvalSeq(fs, scope, st, [call], fuel) == Dispatch(fs, scope, st, call, fuel)
  {
  }

  /** `exports_files` on a `.bzl` name first evaluates that file, relative to
      the top of the stack, and then goes on with the remaining names from the
      state it produced. */
  lemma LoadExportsStep(fs: FileSystem, st: State, name: string, rest: seq<string>, fuel: nat)
    requires EndsWith(name, ".bzl") && |st.dirs| > 0
    ensures (var first := EvalFile(fs, BuildScope, st, PathJoin(st.dirs[|st.dirs| - 1], name), fuel);
             LoadExports(fs, st, [name] + rest, fuel)
             == if first.Ok? then LoadExports(fs, first.value, rest, fuel) else Err(first.error))
  {
  }

  /** Any other name is passed over. */
  lemma LoadExportsSkip(fs: FileSystem, st: State, name: string, rest: seq<string>, fuel: nat)
    requires !EndsWith(name, ".bzl")
    ensures LoadExports(fs, st, [name] + rest, fuel) == LoadExports(fs, st, rest, fuel)
  {
  }

  /** Exporting two name lists one after the other is exporting their
      concatenation: the loop is a left fold over the names, in order. */
  lemma {:induction false} LoadExportsAppend(fs: FileSystem, st: State, a: seq<string>, b: seq<string>, fuel: nat)
    ensures LoadExports(fs, st, a + b, fuel)
         == (match LoadExports(fs, st, a, fuel)
             case Ok(mid) => LoadExports(fs, mid, b, fuel)
             case Err(e) => Err(e))
    decreases |a|
  {
    if |a| == 0 {
      assert a + b == b;
    } else {
      assert (a + b)[0] == a[0];
      assert (a + b)[1..] == a[1..] + b;
      if EndsWith(a[0], ".bzl") {
        if |st.dirs| > 0 {
          var first := EvalFile(fs, BuildScope, st, PathJoin(st.dirs[|st.dirs| - 1], a[0]), fuel);
          if first.Ok? {
            LoadExportsAppend(fs, first.value, a[1..], b, fuel);
          }
        }
      } else {
        LoadExportsAppend(fs, st, a[1..], b, fuel);
      }
    }
  }

  /** An archive whose extracted directory holds a WORKSPACE is a subproject:
      it is loaded with the directory pushed, appended to the current
      converter, and the stack is popped back to where it was. */
  lemma HttpArchiveSubproject(fs: FileSystem, st: State, call: Invocation, fuel: nat)
    requires ArchiveCallWellFormed(st, call)
    requires Exists(fs, PathJoin(ExtractedDir(st, call), "WORKSPACE"))
    ensures HttpArchive(fs, st, call, fuel)
         == (match LoadSubproject(fs, st.dirs + [ExtractedDir(st, call)], ExtractedDir(st, call), fuel)
             case Ok(sub) => Ok(State(AddSubproject(st.conv, sub.conv), st.dirs))
             case Err(e) => Err(e))
  {
  }

  /** An archive with a BUILD but no WORKSPACE is evaluated into the current
      converter, with the directory stack left as it is (not pushed). */
  lemma HttpArchiveBuildOnly(fs: FileSystem, st: State, call: Invocation, fuel: nat)
    requires ArchiveCallWellFormed(st, call)
    requires !Exists(fs, PathJoin(ExtractedDir(st, call), "WORKSPACE"))
    requires Exists(fs, PathJoin(ExtractedDir(st, call), "BUILD"))
    ensures HttpArchive(fs, st, call, fuel)
         == EvalFile(fs, BuildScope, st, PathJoin(ExtractedDir(st, call), "BUILD"), fuel)
  {
  }

  /** With depth left and both files readable, a subproject is the WORKSPACE
      calls run in WORKSPACE scope on a fresh converter for the directory,
      followed by the BUILD calls run in BUILD scope on what they produced. */
  lemma LoadSubprojectRunsBothFiles(fs: FileSystem, dirs: seq<Path>, projDir: Path, fuel: nat)
    requires fuel > 0
    requires PathJoin(projDir, "WORKSPACE") in fs.rules && PathJoin(projDir, "BUILD") in fs.rules
    ensures LoadSubproject(fs, dirs, projDir, fuel)
         == (match EvalSeq(fs, WorkspaceScope, State(New(projDir), dirs), fs.rules[PathJoin(projDir, "WORKSPACE")], fuel - 1)
             case Ok(ws) => EvalSeq(fs, BuildScope, ws, fs.rules[PathJoin(projDir, "BUILD")], fuel - 1)
             case Err(e) => Err(e))
  {
  }

  /** In a WORKSPACE file, `http_archive` calls reach the archive handler. */
  lemma HttpArchiveCallRouting(fs: FileSystem, st: State, call: Invocation, fuel: nat)
    requires call.rule == "http_archive"
    ensures Dispatch(fs, WorkspaceScope, st, call, fuel) == HttpArchive(fs, st, call, fuel)
  {
  }

  /** `exports_files` calls reach the export handler in either scope. */
  lemma ExportsFilesCallRouting(fs: FileSystem, scope: Scope, st: State, call: Invocation, fuel: nat)
    requires call.rule == "exports_files"
    ensures Dispatch(fs, scope, st, call, fuel) == ExportsFiles(fs, st, call, fuel)
  {
  }

  /** `glob` calls reach the glob handler in either scope. */
  lemma GlobCallRouting(fs: FileSystem, scope: Scope, st: State, call: Invocation, fuel: nat)
    requires call.rule == "glob"
    ensures Dispatch(fs, scope, st, call, fuel) == Glob(st, call)
  {
  }

  /** A `workspace` call in a WORKSPACE file is routed to the workspace
      handler, whatever other keywords it carries, and only the converter
      changes. */
  lemma WorkspaceCallRouting(fs: FileSystem, st: State, call: Invocation, fuel: nat)
    requires call.rule == "workspace"
    ensures Dispatch(fs, WorkspaceScope, st, call, fuel).Ok? <==> |call.args| == 0 && Workspace(st.conv, call.kwargs).Ok?
    ensures Dispatch(fs, WorkspaceScope, st, call, fuel).Ok? ==>
      Dispatch(fs, WorkspaceScope, st, call, fuel).value == State(Workspace(st.conv, call.kwargs).value, st.dirs)
  {
  }
}

=== FILE: results.dfy ===
/** Failure-compatible result type shared by every handler of the model.
    A `Failure` stands for the Python exception that would abort the whole
    translation run (an `assert False`, a `KeyError`, a `NameError`, ...). */
module Results {

  /** Why a translation run stopped. */
  datatype Failure =
    | Unsupported(rule: string)       // the handler's body is `assert False`
    | UndefinedName(name: string)     // no handler of that name is in scope
    | BadArguments(rule: string)      // the call does not fit the handler's signature
    | MissingKey(key: string)         // a required keyword argument is absent
    | WrongType(key: string)          // a keyword argument has the wrong shape
    | NoSuchFile(path: string)        // `open` of a rule file fails
    | RepositoryNotFound(name: string) // no WORKSPACE, BUILD or CMakeLists.txt after fetching
    | EmptyDirectoryStack             // `interpreter_curdir[-1]` on an empty stack
    | GlobPattern                     // `assert len(pattern) == 1` in glob
    | RecursionLimit                  // the host interpreter's recursion depth is exhausted

  datatype Result<+T> = Ok(value: T) | Err(error: Failure) {

    predicate IsFailure() {
      Err?
    }

    function PropagateFailure<U>(): Result<U>
      requires Err?
    {
      Err(error)
    }

    function Extract(): T
      requires Ok?
    {
      value
    }
  }
}

=== FILE: rules.dfy ===
/** The pure rule handlers of bazel_to_cmake.py: each maps a converter and the
    keyword arguments of one rule call to a new converter, or fails. */
module BuildRules {
  import opened Results
  import opened Strings
  import opened CMakeConverter

  /** An argument value as it appears in a rule file: a string or a list of strings. */
  datatype Value = Str(s: string) | Strs(items: seq<string>)

  type Kwargs = map<string, Value>

  /** One top-level call of a rule file: `rule(args..., key = value, ...)`. */
  datatype Invocation = Invocation(rule: string, args: seq<Value>, kwargs: Kwargs)

  /** `kwargs["key"]` used where a string is needed. */
  function GetString(kwargs: Kwargs, key: string): (r: Result<string>)
    ensures r.Ok? <==> key in kwargs && kwargs[key].Str?
    ensures r.Ok? ==> r.value == kwargs[key].s
  {
    if key !in kwargs then Err(MissingKey(key))
    else if kwargs[key].Strs? then Err(WrongType(key))
    else Ok(kwargs[key].s)
  }

  /** `kwargs.get("key", [])` used where a list is needed. */
  function GetListOrEmpty(kwargs: Kwargs, key: string): (r: Result<seq<string>>)
    ensures r.Ok? <==> key !in kwargs || kwargs[key].Strs?
    ensures r.Ok? && key in kwargs ==> r.value == kwargs[key].items
    ensures key !in kwargs ==> r == Ok([])
  {
    if key !in kwargs then Ok([])
    else if kwargs[key].Str? then Err(WrongType(key))
    else Ok(kwargs[key].items)
  }

  /** `x[1:]`: the string without its first character (empty stays empty). */
  function DropFirst(x: string): string {
    if |x| == 0 then x else x[1..]
  }

  /** `StripColons`: drops the first character of every label, whatever it is. */
  function StripColons(deps: seq<string>): (r: seq<string>)
    ensures |r| == |deps|
    ensures forall i :: 0 <= i < |deps| && |deps[i]| > 0 ==> [deps[i][0]] + r[i] == deps[i]
    ensures forall i :: 0 <= i < |deps| && |deps[i]| == 0 ==> r[i] == ""
  {
    if |deps| == 0 then []
    else [DropFirst(deps[0])] + StripColons(deps[1..])
  }

  /** Putting any one-character sigil in front of each name and stripping it
      again gives the names back. */
  lemma StripColonsUndoesSigil(sigil: char, names: seq<string>)
    ensures StripColons(seq(|names|, i requires 0 <= i < |names| => [sigil] + names[i])) == names
  {
    var labels := seq(|names|, i requires 0 <= i < |names| => [sigil] + names[i]);
    var r := StripColons(labels);
    forall i | 0 <= i < |names|
      ensures r[i] == names[i]
    {
      assert [labels[i][0]] + r[i] == labels[i] == [sigil] + names[i];
      assert r[i] == labels[i][1..] == names[i];
    }
  }

  /** The first character goes even when it is not a colon. */
  lemma StripColonsDropsAnyFirstCharacter()
    ensures StripColons([":upb", "//third_party:zlib", ""]) == ["upb", "/third_party:zlib", ""]
  {
  }

  /** `IsSourceFile`: a C or C++ translation unit by its suffix. */
  predicate IsSourceFile(name: string) {
    EndsWith(name, ".c") || EndsWith(name, ".cc")
  }

  /** A name is a source file exactly when it is a stem followed by `.c` or `.cc`. */
  lemma IsSourceFileBySuffix(name: string)
    ensures IsSourceFile(name) <==> (exists stem :: name == stem + ".c") || (exists stem :: name == stem + ".cc")
  {
    EndsWithSplits(name, ".c");
    EndsWithSplits(name, ".cc");
  }

  /** Some file of the list is a source file (the intended reading of
      `filter(IsSourceFile, files)` as a condition). */
  predicate HasSourceFile(files: seq<string>) {
    exists i :: 0 <= i < |files| && IsSourceFile(files[i])
  }

  /** The text `_add_deps` appends: one link statement, deps one per indented line. */
  function LinkBlock(name: string, keyword: string, deps: seq<string>): (r: string)
    ensures StartsWith(r, "target_link_libraries(" + name + keyword + "\n  ") && EndsWith(r, ")\n")
    ensures |deps| == 1 ==> r == "target_link_libraries(" + name + keyword + "\n  " + deps[0] + ")\n"
  {
    "target_link_libraries(" + name + keyword + "\n  " + Join("\n  ", deps) + ")\n"
  }

  /** The statement declaring a compiled library over its files. */
  function LibraryBlock(name: string, files: seq<string>): (r: string)
    ensures StartsWith(r, "add_library(" + name + "\n  ") && EndsWith(r, ")\n")
    ensures |files| == 1 ==> r == "add_library(" + name + "\n  " + files[0] + ")\n"
  {
    "add_library(" + name + "\n  " + Join("\n  ", files) + ")\n"
  }

  /** The statement declaring a header-only library. */
  function InterfaceBlock(name: string): (r: string)
    ensures StartsWith(r, "add_library(" + name) && EndsWith(r, " INTERFACE)\n")
    ensures |r| == |name| + 24
  {
    "add_library(" + name + " INTERFACE)\n"
  }

  /** Moving the separator next to the joined text it precedes. */
  lemma Regroup(head: string, sep: string, body: string, tail: string)
    ensures head + sep + body + tail == head + (sep + body) + tail
  {
  }

  /** Read line by line, a link statement over a non-empty list names every
      dependency, in order, on its own line indented by two spaces. */
  lemma LinkBlockLines(name: string, keyword: string, deps: seq<string>)
    requires |deps| > 0
    ensures LinkBlock(name, keyword, deps)
         == "target_link_libraries(" + name + keyword + Prefixed("\n  ", deps) + ")\n"
  {
    JoinIsPrefixed("\n  ", deps);
    Regroup("target_link_libraries(" + name + keyword, "\n  ", Join("\n  ", deps), ")\n");
  }

  /** Read line by line, a library statement over a non-empty list names every
      file, in order, on its own line indented by two spaces. */
  lemma LibraryBlockLines(name: string, files: seq<string>)
    requires |files| > 0
    ensures LibraryBlock(name, files) == "add_library(" + name + Prefixed("\n  ", files) + ")\n"
  {
    JoinIsPrefixed("\n  ", files);
    Regroup("add_library(" + name, "\n  ", Join("\n  ", files), ")\n");
  }

  /** Only `toplevel` may have grown; everything else is as before. */
  predicate ToplevelGrows(before: Converter, after: Converter) {
    && before.toplevel <= after.toplevel
    && after.prelude == before.prelude
    && after.ifLua == before.ifLua
    && after.subprojects == before.subprojects
    && after.projDir == before.projDir
  }

  /** The link text `_add_deps` would append for these arguments ("" without deps). */
  function LinkSuffix(kwargs: Kwargs, keyword: string): string {
    if "deps" in kwargs && "name" in kwargs && kwargs["name"].Str? && kwargs["deps"].Strs?
    then LinkBlock(kwargs["name"].s, keyword, StripColons(kwargs["deps"].items))
    else ""
  }

  /** `_add_deps`: without a `deps` key nothing changes; otherwise exactly one
      link statement over the stripped deps is appended to `toplevel`. */
  function AddDeps(c: Converter, kwargs: Kwargs, keyword: string): (r: Result<Converter>)
    ensures "deps" !in kwargs ==> r == Ok(c)
    ensures r.Ok? <==> "deps" !in kwargs || ("name" in kwargs && kwargs["name"].Str? && kwargs["deps"].Strs?)
    ensures r.Ok? ==> ToplevelGrows(c, r.value)
    ensures r.Ok? ==> r.value.toplevel == c.toplevel + LinkSuffix(kwargs, keyword)
  {
    if "deps" !in kwargs then Ok(c)
    else
      var name :- GetString(kwargs, "name");
      if kwargs["deps"].Str? then Err(WrongType("deps"))
      else
        Ok(c.(toplevel := c.toplevel + LinkBlock(name, keyword, StripColons(kwargs["deps"].items))))
  }

  /** The two target names `cc_library` skips. */
  predicate IsSkippedLibrary(name: string) {
    name == "amalgamation" || name == "upbc_generator"
  }

  /** The keyword arguments `cc_library` accepts without raising. */
  predicate CcLibraryAccepts(kwargs: Kwargs) {
    && "name" in kwargs && kwargs["name"].Str?
    && (IsSkippedLibrary(kwargs["name"].s) || LibraryListsWellTyped(kwargs))
  }

  /** `srcs`, `hdrs` and `deps`, when given, are lists. */
  predicate LibraryListsWellTyped(kwargs: Kwargs) {
    && ("srcs" !in kwargs || kwargs["srcs"].Strs?)
    && ("hdrs" !in kwargs || kwargs["hdrs"].Strs?)
    && ("deps" !in kwargs || kwargs["deps"].Strs?)
  }

  /** `srcs + hdrs`, each defaulting to the empty list. */
  function LibraryFiles(kwargs: Kwargs): seq<string> {
    (if "srcs" in kwargs && kwargs["srcs"].Strs? then kwargs["srcs"].items else [])
    + (if "hdrs" in kwargs && kwargs["hdrs"].Strs? then kwargs["hdrs"].items else [])
  }

  /** `cc_library`, with the library/interface test read as intended: a compiled
      library when some file is a `.c`/`.cc` source, a header-only INTERFACE
      library otherwise, each followed by its link statement. */
  function CcLibrary(c: Converter, kwargs: Kwargs): (r: Result<Converter>)
    ensures r.Ok? <==> CcLibraryAccepts(kwargs)
    ensures r.Ok? ==> ToplevelGrows(c, r.value)
    ensures r.Ok? && IsSkippedLibrary(kwargs["name"].s) ==> r.value == c
    ensures r.Ok? && !IsSkippedLibrary(kwargs["name"].s) && HasSourceFile(LibraryFiles(kwargs)) ==>
      r.value.toplevel == c.toplevel + LibraryBlock(kwargs["name"].s, LibraryFiles(kwargs)) + LinkSuffix(kwargs, "")
    ensures r.Ok? && !IsSkippedLibrary(kwargs["name"].s) && !HasSourceFile(LibraryFiles(kwargs)) ==>
      r.value.toplevel == c.toplevel + InterfaceBlock(kwargs["name"].s) + LinkSuffix(kwargs, " INTERFACE")
  {
    var name :- GetString(kwargs, "name");
    if IsSkippedLibrary(name) then Ok(c)
    else
      var srcs :- GetListOrEmpty(kwargs, "srcs");
      var hdrs :- GetListOrEmpty(kwargs, "hdrs");
      var files := srcs + hdrs;
      if HasSourceFile(files) then
        AddDeps(c.(toplevel := c.toplevel + LibraryBlock(name, files)), kwargs, "")
      else
        AddDeps(c.(toplevel := c.toplevel + InterfaceBlock(name)), kwargs, " INTERFACE")
  }

  /** `cc_library` exactly as written: under Python 3 `filter(...)` returns a lazy
      object that is always truthy, so every non-skipped library takes the
      compiled branch, header-only ones included. */
  function CcLibraryAsWritten(c: Converter, kwargs: Kwargs): (r: Result<Converter>)
    ensures r.Ok? <==> CcLibraryAccepts(kwargs)
    ensures r.Ok? && !IsSkippedLibrary(kwargs["name"].s) ==>
      r.value.toplevel == c.toplevel + LibraryBlock(kwargs["name"].s, LibraryFiles(kwargs)) + LinkSuffix(kwargs, "")
  {
    var name :- GetString(kwargs, "name");
    if IsSkippedLibrary(name) then Ok(c)
    else
      var srcs :- GetListOrEmpty(kwargs, "srcs");
      var hdrs :- GetListOrEmpty(kwargs, "hdrs");
      AddDeps(c.(toplevel := c.toplevel + LibraryBlock(name, srcs + hdrs)), kwargs, "")
  }

  /** As written and as intended agree exactly when the header-only branch is not needed. */
  lemma CcLibraryAsWrittenAgreesWithSources(c: Converter, kwargs: Kwargs)
    requires CcLibraryAccepts(kwargs)
    ensures CcLibraryAsWritten(c, kwargs) == CcLibrary(c, kwargs)
        <==> IsSkippedLibrary(kwargs["name"].s) || HasSourceFile(LibraryFiles(kwargs))
  {
    if !IsSkippedLibrary(kwargs["name"].s) && !HasSourceFile(LibraryFiles(kwargs)) {
      var name := kwargs["name"].s;
      var a := CcLibraryAsWritten(c, kwargs).value.toplevel;
      var b := CcLibrary(c, kwargs).value.toplevel;
      var i := |c.toplevel| + |"add_library(" + name|;
      assert a[i] == '\n';
      assert b[i] == ' ';
    }
  }

  /** The header-only fixture `{name: "iface", hdrs: ["a.h"]}`. */
  function HeaderOnlyFixture(): (kwargs: Kwargs)
    ensures CcLibraryAccepts(kwargs) && !IsSkippedLibrary(kwargs["name"].s)
    ensures kwargs["name"].s == "iface" && LibraryFiles(kwargs) == ["a.h"]
    ensures LinkSuffix(kwargs, "") == "" && LinkSuffix(kwargs, " INTERFACE") == ""
    ensures !HasSourceFile(LibraryFiles(kwargs))
  {
    assert !IsSourceFile("a.h");
    var kwargs := map["name" := Str("iface"), "hdrs" := Strs(["a.h"])];
    assert kwargs["name"] == Str("iface") && kwargs["hdrs"] == Strs(["a.h"]);
    assert "srcs" !in kwargs && "deps" !in kwargs;
    kwargs
  }

  /** As written, the header-only fixture becomes a compiled library over `a.h`. */
  lemma CcLibraryAsWrittenMisreadsHeaderOnly()
    ensures CcLibraryAsWritten(New("."), HeaderOnlyFixture()).value.toplevel == "add_library(iface\n  a.h)\n"
  {
    var r := CcLibraryAsWritten(New("."), HeaderOnlyFixture());
    assert r.Ok?;
    assert r.value.toplevel == LibraryBlock("iface", ["a.h"]) by {
      assert r.value.toplevel == "" + LibraryBlock("iface", ["a.h"]) + "";
    }
    IfaceLibraryBlock();
  }

  lemma IfaceLibraryBlock()
    ensures LibraryBlock("iface", ["a.h"]) == "add_library(iface\n  a.h)\n"
  {
  }

  /** As intended, the header-only fixture becomes an INTERFACE library. */
  lemma CcLibraryHeaderOnlyExample()
    ensures CcLibrary(New("."), HeaderOnlyFixture()).value.toplevel == "add_library(iface INTERFACE)\n"
  {
    var r := CcLibrary(New("."), HeaderOnlyFixture());
    assert r.Ok?;
    assert r.value.toplevel == "" + InterfaceBlock("iface") + "";
  }

  /** The compiled fixture `{name: "core", srcs: ["a.c"], hdrs: ["a.h"]}`. */
  lemma CcLibraryCompiledExample()
    ensures CcLibrary(New("."), map["name" := Str("core"), "srcs" := Strs(["a.c"]), "hdrs" := Strs(["a.h"])]).value.toplevel
         == "add_library(core\n  a.c\n  a.h)\n"
  {
    var kwargs := map["name" := Str("core"), "srcs" := Strs(["a.c"]), "hdrs" := Strs(["a.h"])];
    assert kwargs["name"] == Str("core") && kwargs["srcs"] == Strs(["a.c"]);
    assert kwargs["hdrs"] == Strs(["a.h"]) && "deps" !in kwargs;
    assert CcLibraryAccepts(kwargs);
    assert LibraryFiles(kwargs) == ["a.c", "a.h"];
    assert EndsWith("a.c", ".c");
    assert IsSourceFile(LibraryFiles(kwargs)[0]);
    assert Join("\n  ", ["a.h"]) == "a.h";
    assert Join("\n  ", ["a.c", "a.h"]) == "a.c\n  a.h";
    assert LinkSuffix(kwargs, "") == "";
  }

  /** Dependencies `[":a", ":b"]` on target `t` are linked as `a` then `b`. */
  lemma AddDepsExample()
    ensures AddDeps(New("."), map["name" := Str("t"), "deps" := Strs([":a", ":b"])], "").value.toplevel
         == "target_link_libraries(t\n  a\n  b)\n"
  {
    var kwargs := map["name" := Str("t"), "deps" := Strs([":a", ":b"])];
    assert kwargs["name"] == Str("t") && kwargs["deps"] == Strs([":a", ":b"]);
    assert DropFirst(":a") == "a" && DropFirst(":b") == "b";
    assert StripColons([":b"]) == ["b"];
    assert StripColons([":a", ":b"]) == ["a", "b"];
    assert Join("\n  ", ["b"]) == "b";
    assert Join("\n  ", ["a", "b"]) == "a\n  b";
    assert LinkSuffix(kwargs, "") == "target_link_libraries(t\n  a\n  b)\n";
  }

  /** `workspace`: appends exactly one `project(name)` line to the prelude. */
  function Workspace(c: Converter, kwargs: Kwargs): (r: Result<Converter>)
    ensures r.Ok? <==> "name" in kwargs && kwargs["name"].Str?
    ensures r.Ok? ==> r.value.prelude == c.prelude + "project(" + kwargs["name"].s + ")\n"
    ensures r.Ok? ==> r.value.toplevel == c.toplevel && r.value.subprojects == c.subprojects
    ensures r.Ok? ==> r.value.ifLua == c.ifLua && r.value.projDir == c.projDir
  {
    var name :- GetString(kwargs, "name");
    Ok(c.(prelude := c.prelude + "project(" + name + ")\n"))
  }
}

=== FILE: strings.dfy ===
/** The handful of Python string operations the translator relies on. */
module Strings {

  type Path = string

  /** `s.startswith(prefix)` */
  predicate StartsWith(s: string, prefix: string) {
    |prefix| <= |s| && s[..|prefix|] == prefix
  }

  /** `s.endswith(suffix)` */
  predicate EndsWith(s: string, suffix: string) {
    |suffix| <= |s| && s[|s| - |suffix|..] == suffix
  }

  /** A suffix test succeeds exactly when the string is some stem followed by the suffix. */
  lemma EndsWithSplits(s: string, suffix: string)
    ensures EndsWith(s, suffix) <==> exists stem :: s == stem + suffix
  {
    if EndsWith(s, suffix) {
      var stem := s[..|s| - |suffix|];
      assert s == stem + suffix;
    }
    if exists stem :: s == stem + suffix {
      var stem :| s == stem + suffix;
      assert s[|s| - |suffix|..] == suffix;
    }
  }

  /** `sep.join(xs)` */
  function Join(sep: string, xs: seq<string>): (r: string)
    ensures |xs| == 0 ==> r == ""
    ensures |xs| == 1 ==> r == xs[0]
  {
    if |xs| == 0 then ""
    else if |xs| == 1 then xs[0]
    else xs[0] + sep + Join(sep, xs[1..])
  }

  /** Every element preceded by `sep`: the reference reading of a joined list
      that starts with a separator. */
  function Prefixed(sep: string, xs: seq<string>): string {
    if |xs| == 0 then "" else sep + xs[0] + Prefixed(sep, xs[1..])
  }

  /** A separator followed by the joined list puts each element, in order,
      right after its own copy of the separator. */
  lemma {:induction false} JoinIsPrefixed(sep: string, xs: seq<string>)
    requires |xs| > 0
    ensures sep + Join(sep, xs) == Prefixed(sep, xs)
  {
    if |xs| == 1 {
      assert Prefixed(sep, xs[1..]) == "";
    } else {
      JoinIsPrefixed(sep, xs[1..]);
      calc {
        sep + Join(sep, xs);
        sep + (xs[0] + sep + Join(sep, xs[1..]));
        sep + xs[0] + (sep + Join(sep, xs[1..]));
        sep + xs[0] + Prefixed(sep, xs[1..]);
      }
    }
  }

  /** `s.replace(c, "")` for a one-character `c`: every occurrence removed,
      every other character kept in order. */
  function RemoveAll(s: string, c: char): (r: string)
    ensures multiset(r) == multiset(s)[c := 0]
    ensures c !in s ==> r == s
  {
    if |s| == 0 then ""
    else
      assert s == [s[0]] + s[1..];
      (if s[0] == c then "" else [s[0]]) + RemoveAll(s[1..], c)
  }

  /** Removal works piecewise, so the kept characters stay in their order. */
  lemma {:induction false} RemoveAllAppend(a: string, b: string, c: char)
    ensures RemoveAll(a + b, c) == RemoveAll(a, c) + RemoveAll(b, c)
    decreases |a|
  {
    if |a| == 0 {
      assert a + b == b;
    } else {
      assert (a + b)[0] == a[0];
      assert (a + b)[1..] == a[1..] + b;
      RemoveAllAppend(a[1..], b, c);
    }
  }

  /** The label `":a:b.bzl"` names the file `ab.bzl`. */
  lemma RemoveAllColonsExample()
    ensures RemoveAll(":a:b.bzl", ':') == "ab.bzl"
  {
    var tail := "b.bzl";
    assert ':' !in tail;
    assert ['a'] + tail == "ab.bzl";
    assert [':', 'a', ':'] + tail == ":a:b.bzl";
    RemoveAllTwoColons('a', tail);
  }

  /** A label `":" + x + ":" + rest` with no other colon names `x + rest`. */
  lemma RemoveAllTwoColons(x: char, rest: string)
    requires x != ':' && ':' !in rest
    ensures RemoveAll([':', x, ':'] + rest, ':') == [x] + rest
  {
    var s := [':', x, ':'] + rest;
    assert s[1..] == [x, ':'] + rest;
    assert s[2..] == [':'] + rest;
    assert s[3..] == rest;
    assert RemoveAll(s[2..], ':') == RemoveAll(rest, ':') == rest;
    assert RemoveAll(s[1..], ':') == [x] + rest;
  }

  /** `os.path.join(a, b)`, without its special cases for absolute or empty parts. */
  function PathJoin(a: Path, b: Path): (p: Path)
    ensures StartsWith(p, a) && EndsWith(p, b)
    ensures |p| == |a| + 1 + |b| && p[|a|] == '/'
  {
    a + "/" + b
  }
}
